=== FILE: README.md ===
# Terapeak barcode scanner — a Dafny model of its decision logic

The Terapeak barcode scanner drives a Chrome window on eBay's Terapeak
product-research page. A USB barcode scanner types each code into the
page's search field, followed by Enter. The script notices the completed
scan, submits it, waits for the results, counts it and clears the field for
the next scan. It has two detection strategies. The *interactive* mode polls
the field's value. The *auto* mode (the default) injects a page-side Enter
listener that is meant to write the field's value into the signal cell
`window.lastBarcode`, and polls that cell. As written, the listener never
writes it (see "## Findings"). A
separate hardware self-test tool reads scanner lines from the terminal and
counts them.

This project models the decisions of both programs as pure functions over
abstract observations. Every driver call (`get`, the
`current_url` read, `find_element`, `is_displayed`, `get_attribute`,
`send_keys`, `execute_script`, `click`) and every terminal read is an input:
an `Outcome` (`Returned` or `Raised`), a string read, or a page answer.
`quit` is taken to always return, and `find_element` and `is_displayed`
to raise nothing but `NoSuchElementException` (see "## Left out"). Each loop is a fold over a
finite trace of ticks, and the keyboard interrupt is the end of the trace.
The project then proves properties of those folds.

Modules, one per component:

- `Wrappers` (`wrappers.dfy`): `Option` and the call `Outcome`.
- `Text` (`text.dfy`): Python's `str.strip()` over the exact character set
  `str.isspace` accepts, `lower()`, and substring `in`.
- `Locator` (`locator.dfy`): `find_search_input`, a first-match search over
  the seven CSS selectors.
- `Processor` (`processor.dfy`): `process_barcode_scan`,
  `wait_for_results` and `clear_search_field`.
- `Polling` (`polling.dfy`): the per-tick rule of `run_interactive_mode`
  and its fold.
- `EventDriven` (`event_driven.dfy`): the page-side listener, as its effect
  on the signal cell, both as written and as intended, and the
  test-and-clear loop of `run_auto_mode`. Which listener a session runs is
  part of its `Environment`.
- `Session` (`session.dfy`): `open_terapeak` with its sign-in gate, the
  startup and exit paths shared by both run methods, `cleanup`, and `main`'s
  argument handling. A session's behaviour is the list of `Action`s it
  performs (`SetupBrowser`, `Navigate`, `AwaitLogin`, `LocateField`,
  `FocusField`, `InstallListener`, `ScanLoop`, `RunCleanup`, `Quit`), what
  the run method returns, and the scan count it logs.
- `SelfTest` (`self_test.dfy`): the read–strip–count loop of the hardware
  test and its closing verdict.

Behaviour of the code that a reader might not expect:

- Debouncing in interactive mode is conditional. After processing,
  `last_value` is reset to the empty string. If the clear did not empty the
  field, the same code is processed again on the next tick
  (`Polling.ValueLeftInFieldIsReprocessed`). If the clear did empty it, the
  detector is idle again (`Polling.ClearedFieldIsIdle`).
- As written, auto mode detects nothing. The listener's `bind` puts the
  search input where the event should be, so the Enter test never holds and
  the signal stays empty (`EventDriven.AsWrittenAutoModeNeverDetects`,
  `Session.AsWrittenAutoSessionCountsNothing`). The next two points hold
  for the listener as intended.
- Auto mode does not strip. The intended listener records any non-empty
  field value, so a field holding only spaces is emitted and counted as a
  scan (`EventDriven.WhitespaceValueIsEmitted`). Interactive mode does
  ignore whitespace-only values.
- Auto mode can lose a scan. Two Enters between two reads of the signal
  leave only the second value (`EventDriven.SecondScanOverwritesFirst`).
  The read of the signal (line 325) and its clear (line 331) are two
  separate calls, so an Enter between them is overwritten by the clear
  (`EventDriven.ScanDuringClearIsLost`).
- Not every exit path releases the browser. The focusing click after the
  field is located (lines 215 and 291) sits outside every `try`. If it
  raises, the exception leaves the run method and the driver is never quit
  (`Session.QuitExactlyOnceWhenAcquired`).
- A failed startup does not make the process exit non-zero. `main` ignores
  the run method's `False` (`Session.StartupFailureExitsZero`). Only an
  exception that propagates out of the run method gives exit status 1.

`lower()` is modelled on ASCII capitals only. For the test
`"signin" in url.lower()` this is exact. Outside ASCII, only U+212A
(Kelvin sign) and U+0130 (capital I with dot) lower-case to text that
includes an ASCII letter. U+212A becomes `k`, which does not occur in
"signin". U+0130 becomes `i` followed by a combining dot, and "signin"
never has `i` followed by that dot. Every other non-ASCII character
lower-cases to non-ASCII text (U+212B, the Angstrom sign, becomes `å`), so
none of them can complete a match.

## Model

| member | source | states |
|---|---|---|
| `Text.Strip` | test_barcode_scanner.py:49 | the stripped line is a slice of the input with only whitespace around it, neither starts nor ends with whitespace, and is empty exactly when the input is all whitespace |
| `Text.StripIdempotent` | test_barcode_scanner.py:49 | stripping an already stripped line changes nothing |
| `Locator.FirstVisible` | terapeak_barcode_scanner.py:121-131 | selectors are tried in order; the result is the element of a selector whose element is displayed while every earlier one is missing or hidden; `None` exactly when no selector finds a displayed element |
| `Locator.FindSearchInput` | terapeak_barcode_scanner.py:108-131 | over the seven declared selectors: `None` only when all seven fail, otherwise the first displayed match |
| `Locator.EarliestSelectorWins` | terapeak_barcode_scanner.py:121-126 | when several selectors match displayed elements, the first one in declared order decides the result |
| `Locator.LaterSelectorsIgnored` | terapeak_barcode_scanner.py:121-126 | once a selector has matched, what later selectors would find does not affect the result |
| `Locator.OnlyMiddleSelectorMatches` | terapeak_barcode_scanner.py:121-128 | with selectors A, B, C where only B finds a displayed element, the handle returned is B's |
| `Processor.WaitForResults` | terapeak_barcode_scanner.py:133-142 | answers whether the wait finished; a raising wait is swallowed and answers false |
| `Processor.ClearSearchField` | terapeak_barcode_scanner.py:144-155 | the field is cleared exactly when click, select-all and delete all return; any failure is swallowed |
| `Processor.ProcessBarcodeScan` | terapeak_barcode_scanner.py:157-189 | returns true and adds exactly 1 to the count iff sending RETURN did not raise; a raising submit returns false with the count unchanged; the field ends cleared only after a good submit and a good clear |
| `Processor.WaitAndClearDoNotMatter` | terapeak_barcode_scanner.py:165-189 | two cycles whose submit behaved alike give the same result and count, whatever the wait and the clear did |
| `Polling.ReadValue` | terapeak_barcode_scanner.py:236 | a missing `value` attribute reads as the empty string, a present one as itself |
| `Polling.Detect` | terapeak_barcode_scanner.py:236-253 | a code is handed on iff the first read is non-empty, differs from `last_value`, and the re-read holds a non-whitespace character; the code is the raw re-read; `last_value` becomes empty after handing on, the first read otherwise |
| `Polling.Start` | terapeak_barcode_scanner.py:232 | the loop starts with an empty `last_value` and the scanner's current count |
| `Polling.Step` | terapeak_barcode_scanner.py:234-256 | one loop iteration: the count rises by 1 exactly when a code was handed on and its submit went through; a tick that hands on nothing only updates `last_value`; handed-on codes are never blank |
| `Polling.Run` | terapeak_barcode_scanner.py:234-256 | the polling loop over a trace hands on at most one code per tick, and the count never decreases and grows by at most one per code handed on |
| `Polling.RunCountsSubmittedScans` | terapeak_barcode_scanner.py:176 | over any trace the count grows by exactly the number of submitted codes, never decreases, and at most one code is handed on per tick |
| `Polling.RunEmitsOnlyNonBlank` | terapeak_barcode_scanner.py:244-248 | over any trace every code handed to the processor holds a non-whitespace character |
| `Polling.UnchangedValueNotReprocessed` | terapeak_barcode_scanner.py:239-253 | while the field keeps reading the value in `last_value`, nothing is handed on and the state does not change |
| `Polling.RepeatEmitsOnlyAfterEmission` | terapeak_barcode_scanner.py:239-253 | of two consecutive ticks that read the same value, the second hands on a code only if the first one did |
| `Polling.ValueLeftInFieldIsReprocessed` | terapeak_barcode_scanner.py:247-249 | after a processed tick, the same value still in the field is processed again whenever its re-read is not blank |
| `Polling.ClearedFieldIsIdle` | terapeak_barcode_scanner.py:239-253 | after a processed tick, a field that reads empty hands on nothing and leaves the detector idle |
| `Polling.SingleScanScenario` | terapeak_barcode_scanner.py:232-256 | the field goes from empty to "012345" and back to empty after processing: exactly one code, "012345", is handed on and counted |
| `EventDriven.OnKeyDown` | terapeak_barcode_scanner.py:310-318 | as written, the listener leaves the signal unchanged on every event; as intended, it sets the signal to the field's value on Enter over a non-empty field and leaves it unchanged otherwise |
| `EventDriven.AsWrittenListenerNeverWrites` | terapeak_barcode_scanner.py:310-318 | as written, no sequence of key events, whatever the field holds, changes the signal |
| `EventDriven.DeliverKeepsLastRecorded` | terapeak_barcode_scanner.py:310-318 | with the intended listener, after a batch of events the signal holds the last recorded value, or its old value when nothing was recorded |
| `EventDriven.Install` | terapeak_barcode_scanner.py:310 | installing the listener starts with an empty signal and the scanner's current count |
| `EventDriven.Step` | terapeak_barcode_scanner.py:323-349 | a non-empty read clears the signal, adds exactly 1 to the count and emits the value, and events between the read and the clear are lost; an empty read emits nothing and keeps the count |
| `EventDriven.Run` | terapeak_barcode_scanner.py:323-349 | the loop over a trace emits at most one value per tick and never decreases the count |
| `EventDriven.RunCountsEmissions` | terapeak_barcode_scanner.py:325-336 | over any trace, with either listener, the count grows by exactly the number of values emitted, at most one per tick |
| `EventDriven.AsWrittenAutoModeNeverDetects` | terapeak_barcode_scanner.py:307-336 | as written, starting from the installed empty signal, the loop emits nothing and the count never moves, whatever is scanned |
| `EventDriven.AsWrittenScanIsMissed` | terapeak_barcode_scanner.py:307-336 | as written, an Enter over a field holding "ABC123" is not emitted and the count stays at 0 |
| `EventDriven.WaitingValueEmittedOnce` | terapeak_barcode_scanner.py:323-336 | the test-and-clear as written, on a signal already holding "ABC123": one emission, a count of 1, and nothing on the next read |
| `EventDriven.EmissionsComeFromRecordings` | terapeak_barcode_scanner.py:310-336 | with the intended listener, every emitted value was recorded (or was already waiting), and there are never more emissions than recordings, so a single Enter is never emitted twice |
| `EventDriven.OneScanPerTickEmittedOnce` | terapeak_barcode_scanner.py:310-336 | with the intended listener, from a cleared signal, with at most one Enter per tick and none during a clear, the emitted values are exactly the recorded values, in order |
| `EventDriven.SecondScanOverwritesFirst` | terapeak_barcode_scanner.py:310-336 | with the intended listener, two Enters between two reads: only the second value is emitted |
| `EventDriven.ScanDuringClearIsLost` | terapeak_barcode_scanner.py:325-331 | with the intended listener, an Enter between a non-empty read and its clear is overwritten: the first value is emitted and the signal is left empty |
| `EventDriven.WhitespaceValueIsEmitted` | terapeak_barcode_scanner.py:314-336 | with the intended listener, a field holding only a space is recorded, emitted and counted |
| `EventDriven.RecordedScanScenario` | terapeak_barcode_scanner.py:310-336 | with the intended listener, "ABC123" recorded then an empty read: exactly one emission and a count of 1, with no duplicate on the next tick |
| `Session.NeedsSignIn` | terapeak_barcode_scanner.py:91 | the sign-in gate opens exactly when "signin", in any mix of letter case, occurs in the current URL |
| `Session.SignInGateIgnoresCase` | terapeak_barcode_scanner.py:91 | "signin" occurs in the lower-cased URL exactly when the URL spells it in some letter case |
| `Session.OpenTerapeak` | terapeak_barcode_scanner.py:82-106 | waits for the login iff the first navigation and the `current_url` read returned and the URL needs sign-in; navigates twice iff it waited and the operator confirmed, otherwise once; answers true iff no call on the path raised |
| `Session.Cleanup` | terapeak_barcode_scanner.py:360-365 | cleanup quits the browser once if a driver exists and not at all otherwise |
| `Session.StartSession` | terapeak_barcode_scanner.py:200-215 | the scan loop is reachable iff setup, open, locate and focus all succeed; a session answers false iff setup, open or locate failed; a raising focus click propagates |
| `Session.StartFromActions` | terapeak_barcode_scanner.py:203-215 | once the browser is up, the driver is quit exactly once iff open or locate failed, and never otherwise; it navigates once, or twice when the login was awaited and confirmed; no cleanup, listener or loop happens before the focus click |
| `Session.StartupActions` | terapeak_barcode_scanner.py:200-212 | a failed setup quits nothing; a failed open or locate quits the driver exactly once; startup never cleans up; it navigates as often as `open_terapeak` did |
| `Session.LeaveLoop` | terapeak_barcode_scanner.py:258-265 | leaving the loop always runs cleanup; the interrupt is caught and logs the count, any other exception propagates |
| `Session.LoopEntry` | terapeak_barcode_scanner.py:307-323 | interactive mode enters the scan loop once and never installs the listener; auto mode installs it once and enters the loop, directly after it, only when the install returned |
| `Session.RunFromShape` | terapeak_barcode_scanner.py:231-265 | after a successful startup the session is the startup, the loop entry and cleanup; the run method never answers false, returns normally iff the interrupt ended the loop, and logs the final count exactly then |
| `Session.RunMode` | terapeak_barcode_scanner.py:200-265 | a session starts with the browser setup; a session that answers false scanned nothing and logs no total; a logged total is the final count, and only on a normal return |
| `Session.QuitExactlyOnceWhenAcquired` | terapeak_barcode_scanner.py:200-215 | in both modes the driver is quit exactly once on every path, except when setup failed (no driver exists) or the focus click raised (the driver is left open) |
| `Session.CleanupOnceAfterLoop` | terapeak_barcode_scanner.py:231-265 | cleanup runs exactly once iff the `try` around the loop was entered, whichever way it is left, and quitting the browser is the session's last action |
| `Session.FalseExactlyOnStartupFailure` | terapeak_barcode_scanner.py:276-288 | both run methods answer false exactly when setup failed, Terapeak did not open, or no search field was found |
| `Session.SummaryOnlyOnInterrupt` | terapeak_barcode_scanner.py:351-355 | the total is logged iff the scan loop ran and the interrupt ended it, and it is the final count |
| `Session.SessionCountsScans` | terapeak_barcode_scanner.py:336 | the final count is the number of submitted codes (interactive) or of emitted values (auto), and 0 when no loop ran |
| `Session.AsWrittenAutoSessionCountsNothing` | terapeak_barcode_scanner.py:276-355 | with the listener as written, an automatic session ends with a count of 0 and, if it logs a total, logs 0 |
| `Session.ListenerInstalledOnceBeforeLoop` | terapeak_barcode_scanner.py:307-323 | auto mode installs the listener exactly once, directly before the loop; interactive mode never installs it |
| `Session.SelectMode` | terapeak_barcode_scanner.py:379-395 | argv[1] == "--interactive" selects interactive, "--help" shows help, and no argument or any other argument selects auto |
| `Session.Main` | terapeak_barcode_scanner.py:368-402 | a scanner is built and a session is run iff help was not asked for; the exit status is 1 only when an exception escaped the run method |
| `Session.AutoIsTheDefault` | terapeak_barcode_scanner.py:379-402 | "--auto" and unknown flags behave exactly as no argument |
| `Session.StartupFailureExitsZero` | terapeak_barcode_scanner.py:397-402 | a session whose browser setup, page open or field search failed still exits with status 0 |
| `SelfTest.ReadLine` | test_barcode_scanner.py:49-59 | a line with a non-whitespace character adds exactly 1 to the count and is echoed stripped, with its stripped length and the new count; any other line is reported empty and leaves the count unchanged |
| `SelfTest.Run` | test_barcode_scanner.py:44-59 | the read loop prints one echo per line and counts at most one scan per line, never decreasing the count |
| `SelfTest.RunCountsContentLines` | test_barcode_scanner.py:44-52 | starting from the initial count, the count rises by exactly the number of lines with content and never decreases; there is one echo per line |
| `SelfTest.EchoFollowsLine` | test_barcode_scanner.py:49-54 | echo `i` reports a barcode iff line `i` has content; the barcode is the stripped line and the reported length is its length |
| `SelfTest.EchoShowsRunningCount` | test_barcode_scanner.py:52-55 | the count shown with line `i`'s barcode is the number of lines with content up to and including line `i` |
| `SelfTest.SelfTestMain` | test_barcode_scanner.py:44-80 | one echo per line; end of input closes with the notice and only then; the interrupt closes with the number of lines with content, declaring success iff it is positive |
| `SelfTest.ClosingVerdict` | test_barcode_scanner.py:61-80 | on interrupt the total is the number of lines with content, and success is declared iff such a line exists; end of input prints no total |
| `SelfTest.PaddingIsStripped` | test_barcode_scanner.py:49-59 | a line of spaces and a tab is reported empty; " 0123 " is echoed as "0123", length 4 |

## Left out

- Browser setup (terapeak_barcode_scanner.py:53-80): the Chrome options and the `headless` flag. Whether `webdriver.Chrome` raised is the `setup` input.
- Every `time.sleep` (the page-load, settle, poll, results and review delays). These are wall-clock waits; each loop iteration is one discrete tick.
- The JavaScript source text. Only the listener's effect on the signal cell is modelled, as written and as intended (`EventDriven.Listener`).
- Logging configuration, log messages, banners, the help text and `print`. These are output only.
- The blocking `input()` while the operator logs in. It is the `login` outcome; an EOF there raises and is caught like any other exception.
- Python exception classes. They are `Raised` outcomes. `KeyboardInterrupt` is the end of a finite trace, and only inside the scan loops. An interrupt during startup (for example at the login prompt, which `except Exception` does not catch) is not modelled.
- Where inside a tick a loop-internal call raises: `get_attribute`, `execute_script`, and the refocusing click after an auto-mode scan. The model places a loop's exceptional exit between ticks (`LoopExit.LoopRaised`), so a tick is never cut short.
- Locator.FindSearchInput: a page answers each selector with missing, hidden or displayed only. Exceptions other than `NoSuchElementException` from `find_element` or `is_displayed` escape the run method uncaught and are not modelled.
- The auto loop's `wait_for_results` and `clear_search_field` after a detected scan (lines 334, 343). Both swallow their failures and affect neither the signal nor the count, so they are not inputs of `EventDriven.Step`.
- Session.Cleanup: `driver.quit()` is taken to always return. In `cleanup` (line 364) it sits outside any `try`, so a raising quit would escape the `finally`; that path is not modelled.
- Session.StartSession: the quits after a failed open or locate (lines 204, 211, 280, 287) are likewise taken to always return.
- Session.SessionCountsScans: a keyboard interrupt lands only between ticks. An interrupt during a sleep inside a tick, for example in `wait_for_results` (line 137, which `except Exception` does not catch), would end the loop after the submit but before the count at line 176; that partial tick is not modelled.
- Unicode case mapping in `lower()` beyond ASCII. This is exact for the "signin" test, for the reason given above.
- The self-test's exact output format, and an `input()` that returns a final line without a newline before EOF. Lines are taken as `input()` returns them.

## Findings

| source | as written | input that shows it | evidently intended | confidence | as-written member | corrected member |
|---|---|---|---|---|---|---|
| terapeak_barcode_scanner.py:310-318 | the handler is `function(e){…}.bind(null, arguments[0])`, so the search input is bound as the first argument and `e` is the input element, not the event; `e.key === 'Enter'` never holds and `window.lastBarcode` is never written | scan "ABC123", so the field holds it and Enter is pressed over it | Enter over a non-empty field writes the field's value to `window.lastBarcode`, which the loop then emits and counts once | high; not executed | `EventDriven.AsWrittenAutoModeNeverDetects` | `EventDriven.OneScanPerTickEmittedOnce` |

=== FILE: event_driven.dfy ===
/** The automatic (event-driven) scan detector. A listener is installed in
    the page to record the search field's value in `window.lastBarcode`
    when Enter is pressed; the loop polls that signal cell, and on a
    non-empty value clears it, counts a scan and emits the value
    (test-and-clear). The JavaScript is modelled by its effect on the signal
    cell only, both as it is written and as it is evidently meant. */
module EventDriven {
  import opened Wrappers

  /** A `keydown` event reaching the page body, with the search field's
      value at that moment. */
  datatype KeyEvent = KeyDown(key: string, inputValue: string)

  /** The value the listener and the loop write to clear the signal. */
  const Cleared: string := ""

  /** The listener as written in the page script, and as meant. The script
      binds the search input with `bind(null, arguments[0])`, which places
      the input IN FRONT of the event: the handler's parameter `e` is the
      input element, `e.key` is undefined and the test for Enter never
      holds. The intended listener tests the event's key. */
  datatype Listener = AsWritten | Intended

  /** The intended listener records a value: Enter over a non-empty field. */
  predicate Records(e: KeyEvent) {
    e.key == "Enter" && e.inputValue != ""
  }

  /** The listener's effect on the signal cell for one event. */
  function OnKeyDown(listener: Listener, signal: string, e: KeyEvent): (r: string)
    ensures listener == AsWritten ==> r == signal
    ensures listener == Intended && Records(e) ==> r == e.inputValue
    ensures listener == Intended && !Records(e) ==> r == signal
  {
    match listener
    case AsWritten => signal
    case Intended => if e.key == "Enter" && e.inputValue != "" then e.inputValue else signal
  }

  /** The values the intended listener records from `events`, in order. */
  function Recorded(events: seq<KeyEvent>): (vs: seq<string>)
    ensures |vs| <= |events|
    ensures forall i :: 0 <= i < |vs| ==> vs[i] != ""
  {
    if events == [] then []
    else (if Records(events[0]) then [events[0].inputValue] else []) + Recorded(events[1..])
  }

  /** The signal after the listener has seen `events` in order. */
  function Deliver(listener: Listener, signal: string, events: seq<KeyEvent>): string
    decreases |events|
  {
    if events == [] then signal else Deliver(listener, OnKeyDown(listener, signal, events[0]), events[1..])
  }

  /** The intended listener keeps only the last recorded value: after
      `events` the signal is the last value recorded from them, or the old
      signal when none was. */
  lemma {:induction false} DeliverKeepsLastRecorded(signal: string, events: seq<KeyEvent>)
    ensures Recorded(events) == [] ==> Deliver(Intended, signal, events) == signal
    ensures Recorded(events) != [] ==> Deliver(Intended, signal, events) == Recorded(events)[|Recorded(events)| - 1]
    decreases |events|
  {
    if events != [] {
      DeliverKeepsLastRecorded(OnKeyDown(Intended, signal, events[0]), events[1..]);
    }
  }

  /** The listener as written never writes the signal, whatever keys are
      pressed over whatever field value. */
  lemma {:induction false} AsWrittenListenerNeverWrites(signal: string, events: seq<KeyEvent>)
    ensures Deliver(AsWritten, signal, events) == signal
    decreases |events|
  {
    if events != [] {
      AsWrittenListenerNeverWrites(OnKeyDown(AsWritten, signal, events[0]), events[1..]);
    }
  }

  /** The events that reach the page between two reads of the signal:
      `events` before the read, and `late` between the read and the clear
      that follows a non-empty read (two separate `execute_script` calls).
      After an empty read there is no clear, and the late events simply
      reach the signal before the next read. */
  datatype AutoTick = AutoTick(events: seq<KeyEvent>, late: seq<KeyEvent>)

  /** The signal cell and the scanner's `scan_count`. */
  datatype AutoState = AutoState(signal: string, scanCount: nat)

  /** Installing the listener sets the signal to empty, once, before the
      loop starts. */
  function Install(count: nat): (s: AutoState)
    ensures s.signal == "" && s.scanCount == count
  {
    AutoState(Cleared, count)
  }

  datatype StepResult = StepResult(state: AutoState, emitted: Option<string>)

  /** One iteration of the loop of `run_auto_mode`: the page events happen,
      then the signal is read; a non-empty read is followed by the clear,
      which overwrites whatever the listener wrote in between, counts
      exactly one scan and emits the value; an empty read changes nothing
      but lets the late events reach the signal. */
  function Step(listener: Listener, s: AutoState, t: AutoTick): (r: StepResult)
    ensures var read := Deliver(listener, s.signal, t.events);
      && (read == "" ==> r == StepResult(AutoState(Deliver(listener, read, t.late), s.scanCount), None))
      && (read != "" ==> r == StepResult(AutoState(Cleared, s.scanCount + 1), Some(read)))
  {
    var read := Deliver(listener, s.signal, t.events);
    if read != "" then StepResult(AutoState(Cleared, s.scanCount + 1), Some(read))
    else StepResult(AutoState(Deliver(listener, read, t.late), s.scanCount), None)
  }

  datatype AutoRun = AutoRun(state: AutoState, emitted: seq<string>)

  /** The loop over a finite sequence of ticks (the interrupt ends it):
      at most one value per tick, and the count never decreases. */
  function Run(listener: Listener, s: AutoState, ticks: seq<AutoTick>): (r: AutoRun)
    ensures |r.emitted| <= |ticks|
    ensures s.scanCount <= r.state.scanCount
    decreases |ticks|
  {
    if ticks == [] then
      AutoRun(s, [])
    else
      var step := Step(listener, s, ticks[0]);
      var rest := Run(listener, step.state, ticks[1..]);
      match step.emitted
      case None => rest
      case Some(v) => AutoRun(rest.state, [v] + rest.emitted)
  }

  /** Everything the intended listener records over a trace of ticks, in
      order. */
  function RecordedAll(ticks: seq<AutoTick>): seq<string>
    decreases |ticks|
  {
    if ticks == [] then [] else Recorded(ticks[0].events) + Recorded(ticks[0].late) + RecordedAll(ticks[1..])
  }

  /** The value waiting in the signal cell, as a list of zero or one value. */
  function Pending(s: AutoState): seq<string> {
    if s.signal == "" then [] else [s.signal]
  }

  /** `scan_count` grows by exactly one per emitted value. */
  lemma {:induction false} RunCountsEmissions(listener: Listener, s: AutoState, ticks: seq<AutoTick>)
    ensures Run(listener, s, ticks).state.scanCount == s.scanCount + |Run(listener, s, ticks).emitted|
    decreases |ticks|
  {
    if ticks != [] {
      RunCountsEmissions(listener, Step(listener, s, ticks[0]).state, ticks[1..]);
    }
  }

  /** With the listener as written nothing is ever detected: from a cleared
      signal the loop emits no value and the count stays where it was. */
  lemma {:induction false} AsWrittenAutoModeNeverDetects(s: AutoState, ticks: seq<AutoTick>)
    requires s.signal == ""
    ensures Run(AsWritten, s, ticks) == AutoRun(s, [])
    decreases |ticks|
  {
    if ticks != [] {
      AsWrittenListenerNeverWrites(s.signal, ticks[0].events);
      AsWrittenListenerNeverWrites("", ticks[0].late);
      AsWrittenAutoModeNeverDetects(Step(AsWritten, s, ticks[0]).state, ticks[1..]);
    }
  }

  /** One step of the intended listener's loop, in terms of recordings: an
      emitted value was waiting or was recorded before the read, and leaves
      the signal cleared; without an emission nothing was waiting or
      recorded before the read, and what waits afterwards was recorded late. */
  lemma StepFromRecordings(s: AutoState, t: AutoTick)
    ensures var r := Step(Intended, s, t);
            && (r.emitted.Some? ==> r.emitted.value in Pending(s) + Recorded(t.events) && Pending(r.state) == [])
            && (r.emitted.None? ==>
                  && Pending(s) + Recorded(t.events) == []
                  && |Pending(r.state)| <= |Recorded(t.late)|
                  && (forall v :: v in Pending(r.state) ==> v in Recorded(t.late)))
  {
    DeliverKeepsLastRecorded(s.signal, t.events);
    DeliverKeepsLastRecorded("", t.late);
  }

  /** The values a step emits, as a list of zero or one value. */
  function Emitted(o: Option<string>): seq<string> {
    match o
    case None => []
    case Some(v) => [v]
  }

  /** The loop over a non-empty trace is its first step followed by the
      loop over the rest. */
  lemma RunCons(listener: Listener, s: AutoState, ticks: seq<AutoTick>)
    requires ticks != []
    ensures var step := Step(listener, s, ticks[0]);
            var rest := Run(listener, step.state, ticks[1..]);
            Run(listener, s, ticks) == AutoRun(rest.state, Emitted(step.emitted) + rest.emitted)
  {
  }

  /** With the intended listener, every emitted value was recorded from an
      Enter over a non-empty field (or was already waiting), and no
      recorded value is emitted twice: there are never more emissions than
      recordings. */
  lemma EmissionsComeFromRecordings(s: AutoState, ticks: seq<AutoTick>)
    ensures forall v :: v in Run(Intended, s, ticks).emitted ==> v in Pending(s) + RecordedAll(ticks)
    ensures |Run(Intended, s, ticks).emitted| <= |Pending(s) + RecordedAll(ticks)|
  {
    EmittedWereRecorded(s, ticks);
    EmittedNoMoreThanRecorded(s, ticks);
  }

  lemma {:induction false} EmittedWereRecorded(s: AutoState, ticks: seq<AutoTick>)
    ensures forall v :: v in Run(Intended, s, ticks).emitted ==> v in Pending(s) + RecordedAll(ticks)
    decreases |ticks|
  {
    if ticks != [] {
      var t := ticks[0];
      var step := Step(Intended, s, t);
      var rest, later := Run(Intended, step.state, ticks[1..]).emitted, RecordedAll(ticks[1..]);
      EmittedWereRecorded(step.state, ticks[1..]);
      StepFromRecordings(s, t);
      RunCons(Intended, s, ticks);
      assert RecordedAll(ticks) == Recorded(t.events) + Recorded(t.late) + later;
      forall v | v in Run(Intended, s, ticks).emitted
        ensures v in Pending(s) + RecordedAll(ticks)
      {
        if v in Emitted(step.emitted) {
          assert v in Pending(s) + Recorded(t.events);
        } else {
          assert v in rest;
          assert v in Pending(step.state) || v in later;
        }
      }
    }
  }

  lemma {:induction false} EmittedNoMoreThanRecorded(s: AutoState, ticks: seq<AutoTick>)
    ensures |Run(Intended, s, ticks).emitted| <= |Pending(s) + RecordedAll(ticks)|
    decreases |ticks|
  {
    if ticks != [] {
      var t := ticks[0];
      var step := Step(Intended, s, t);
      EmittedNoMoreThanRecorded(step.state, ticks[1..]);
      StepFromRecordings(s, t);
      RunCons(Intended, s, ticks);
      assert |Pending(s) + RecordedAll(ticks)|
          == |Pending(s) + Recorded(t.events)| + |Recorded(t.late)| + |RecordedAll(ticks[1..])|;
    }
  }

  /** One tick with at most one recording before the read and none between
      the read and the clear: the step emits exactly that recording and
      leaves the signal cleared. */
  lemma StepEmitsItsRecording(s: AutoState, t: AutoTick)
    requires s.signal == ""
    requires |Recorded(t.events)| <= 1 && Recorded(t.late) == []
    ensures var r := Step(Intended, s, t);
            r.state.signal == "" && Emitted(r.emitted) == Recorded(t.events)
  {
    DeliverKeepsLastRecorded(s.signal, t.events);
    DeliverKeepsLastRecorded("", t.late);
    var rec := Recorded(t.events);
    if rec != [] {
      assert rec == [rec[0]];
    }
  }

  /** A single physical scan per tick, none between a read and its clear:
      when the signal starts cleared, the intended listener's values are
      emitted exactly once each, in order. */
  lemma {:induction false} OneScanPerTickEmittedOnce(s: AutoState, ticks: seq<AutoTick>)
    requires s.signal == ""
    requires forall i :: 0 <= i < |ticks| ==> |Recorded(ticks[i].events)| <= 1 && Recorded(ticks[i].late) == []
    ensures Run(Intended, s, ticks).emitted == RecordedAll(ticks)
    decreases |ticks|
  {
    if ticks != [] {
      var t, rest := ticks[0], ticks[1..];
      assert |Recorded(t.events)| <= 1 && Recorded(t.late) == [];
      StepEmitsItsRecording(s, t);
      var step := Step(Intended, s, t);
      forall i | 0 <= i < |rest|
        ensures |Recorded(rest[i].events)| <= 1 && Recorded(rest[i].late) == []
      {
        assert rest[i] == ticks[i + 1];
      }
      OneScanPerTickEmittedOnce(step.state, rest);
      RunCons(Intended, s, ticks);
      assert RecordedAll(ticks) == Recorded(t.events) + [] + RecordedAll(rest);
    }
  }

  /** Two scans between the same pair of reads: the intended listener
      overwrites the first with the second, so only the second is emitted. */
  lemma SecondScanOverwritesFirst(s: AutoState, a: string, b: string)
    requires s.signal == "" && a != "" && b != ""
    ensures Step(Intended, s, AutoTick([KeyDown("Enter", a), KeyDown("Enter", b)], [])).emitted == Some(b)
  {
    var events := [KeyDown("Enter", a), KeyDown("Enter", b)];
    assert events[1..] == [KeyDown("Enter", b)] && events[1..][1..] == [];
    assert OnKeyDown(Intended, s.signal, events[0]) == a && OnKeyDown(Intended, a, events[1]) == b;
    assert Deliver(Intended, a, events[1..]) == Deliver(Intended, b, []);
  }

  /** A scan that lands between a non-empty read and the clear that follows
      it is overwritten by the clear: the first value is emitted, and the
      signal is left empty, so the second is never seen. */
  lemma ScanDuringClearIsLost(s: AutoState, a: string, b: string)
    requires s.signal == "" && a != "" && b != ""
    ensures Step(Intended, s, AutoTick([KeyDown("Enter", a)], [KeyDown("Enter", b)]))
            == StepResult(AutoState("", s.scanCount + 1), Some(a))
  {
    assert Deliver(Intended, s.signal, [KeyDown("Enter", a)]) == Deliver(Intended, a, []);
  }

  /** The intended listener only asks for a non-empty field, so a field
      holding only whitespace is emitted and counted as a scan. */
  lemma WhitespaceValueIsEmitted(s: AutoState)
    requires s.signal == ""
    ensures Step(Intended, s, AutoTick([KeyDown("Enter", " ")], []))
            == StepResult(AutoState("", s.scanCount + 1), Some(" "))
  {
    assert Deliver(Intended, s.signal, [KeyDown("Enter", " ")]) == Deliver(Intended, " ", []);
  }

  /** The intended listener records "ABC123"; the next read of the signal
      finds it empty. Exactly one emission, and none on the following tick. */
  lemma RecordedScanScenario()
    ensures Run(Intended, Install(0), [AutoTick([KeyDown("Enter", "ABC123")], []), AutoTick([], [])])
            == AutoRun(AutoState("", 1), ["ABC123"])
  {
    var t0, t1 := AutoTick([KeyDown("Enter", "ABC123")], []), AutoTick([], []);
    assert Deliver(Intended, "", t0.events) == Deliver(Intended, "ABC123", []);
    assert Step(Intended, Install(0), t0) == StepResult(AutoState("", 1), Some("ABC123"));
    assert Step(Intended, AutoState("", 1), t1) == StepResult(AutoState("", 1), None);
    assert [t0, t1][1..] == [t1];
  }

  /** The same scan with the listener as written: nothing is recorded,
      nothing is emitted, and the count stays at 0. */
  lemma AsWrittenScanIsMissed()
    ensures Run(AsWritten, Install(0), [AutoTick([KeyDown("Enter", "ABC123")], [])]) == AutoRun(AutoState("", 0), [])
  {
    var t0 := AutoTick([KeyDown("Enter", "ABC123")], []);
    assert Deliver(AsWritten, "", t0.events) == Deliver(AsWritten, "", []);
    assert Step(AsWritten, Install(0), t0) == StepResult(AutoState("", 0), None);
  }

  /** The test-and-clear as written, on a signal that already holds
      "ABC123" when the loop starts: the first read emits it and counts one
      scan, the clear empties the signal, and the next read finds nothing. */
  lemma WaitingValueEmittedOnce()
    ensures Run(AsWritten, AutoState("ABC123", 0), [AutoTick([], []), AutoTick([], [])])
            == AutoRun(AutoState("", 1), ["ABC123"])
  {
    var t0, t1 := AutoTick([], []), AutoTick([], []);
    assert Step(AsWritten, AutoState("ABC123", 0), t0) == StepResult(AutoState("", 1), Some("ABC123"));
    assert Step(AsWritten, AutoState("", 1), t1) == StepResult(AutoState("", 1), None);
    assert [t0, t1][1..] == [t1];
  }
}

=== FILE: locator.dfy ===
/** The element locator: the search field is the first element, over an
    ordered list of CSS selectors, that exists on the page and is displayed. */
module Locator {
  import opened Wrappers

  type Selector = string

  /** An opaque reference to a page element. */
  datatype Handle = Handle(id: nat)

  /** What the page answers for one selector: no such element, an element
      that is not displayed, or a displayed element. */
  datatype Probe = Missing | Hidden | Visible(handle: Handle)

  /** The page, seen only through what each selector finds on it. */
  type Page = Selector -> Probe

  /** The selectors tried for the search input, in the order they are tried. */
  const SearchSelectors: seq<Selector> := [
    "input[placeholder*='Search']",
    "input[name='keyword']",
    "input[type='search']",
    "input[aria-label*='search']",
    "#keyword",
    ".search-input input",
    "input[data-test-id*='search']"
  ]

  /** Selector `sels[k]` is the first of `sels` whose element is displayed. */
  ghost predicate FirstVisibleAt(sels: seq<Selector>, page: Page, k: int) {
    && 0 <= k < |sels|
    && page(sels[k]).Visible?
    && forall j :: 0 <= j < k ==> !page(sels[j]).Visible?
  }

  /** Tries `sels` in order, skipping missing and hidden elements, and
      answers the first displayed element; `None` only when every selector
      fails. */
  function FirstVisible(sels: seq<Selector>, page: Page): (r: Option<Handle>)
    ensures r.None? <==> forall i :: 0 <= i < |sels| ==> !page(sels[i]).Visible?
    ensures r.Some? ==> exists k :: FirstVisibleAt(sels, page, k) && page(sels[k]).handle == r.value
  {
    if |sels| == 0 then
      None
    else if page(sels[0]).Visible? then
      assert FirstVisibleAt(sels, page, 0);
      Some(page(sels[0]).handle)
    else
      var r := FirstVisible(sels[1..], page);
      assert r.Some? ==> exists k :: FirstVisibleAt(sels, page, k) && page(sels[k]).handle == r.value by {
        if r.Some? {
          var k :| FirstVisibleAt(sels[1..], page, k) && page(sels[1..][k]).handle == r.value;
          assert FirstVisibleAt(sels, page, k + 1);
        }
      }
      r
  }

  /** The search field of the page, or `None` when none of the seven
      selectors finds a displayed element. */
  function FindSearchInput(page: Page): (r: Option<Handle>)
    ensures r.None? <==> forall i :: 0 <= i < |SearchSelectors| ==> !page(SearchSelectors[i]).Visible?
    ensures r.Some? ==> exists k :: FirstVisibleAt(SearchSelectors, page, k)
                                   && page(SearchSelectors[k]).handle == r.value
  {
    FirstVisible(SearchSelectors, page)
  }

  /** When several selectors find displayed elements, the earliest one wins:
      the result is exactly the element of the first displayed selector. */
  lemma {:induction false} EarliestSelectorWins(sels: seq<Selector>, page: Page, k: int)
    requires FirstVisibleAt(sels, page, k)
    ensures FirstVisible(sels, page) == Some(page(sels[k]).handle)
  {
    if k > 0 {
      assert FirstVisibleAt(sels[1..], page, k - 1);
      EarliestSelectorWins(sels[1..], page, k - 1);
    }
  }

  /** What later selectors find does not matter once an earlier one has
      found a displayed element: two pages that agree up to selector `k`
      give the same result. */
  lemma LaterSelectorsIgnored(sels: seq<Selector>, p1: Page, p2: Page, k: int)
    requires FirstVisibleAt(sels, p1, k)
    requires forall j :: 0 <= j <= k ==> p1(sels[j]) == p2(sels[j])
    ensures FirstVisible(sels, p1) == FirstVisible(sels, p2)
  {
    assert FirstVisibleAt(sels, p2, k);
    EarliestSelectorWins(sels, p1, k);
    EarliestSelectorWins(sels, p2, k);
  }

  /** Three selectors of which only the second finds a displayed element
      (the others find nothing or a hidden one): the handle returned is the
      one that second selector found. */
  lemma OnlyMiddleSelectorMatches(a: Selector, b: Selector, c: Selector, h: Handle, page: Page)
    requires !page(a).Visible? && page(b) == Visible(h) && !page(c).Visible?
    ensures FirstVisible([a, b, c], page) == Some(h)
  {
    assert FirstVisibleAt([a, b, c], page, 1);
    EarliestSelectorWins([a, b, c], page, 1);
  }
}

=== FILE: polling.dfy ===
/** The interactive (polling) scan detector. Every tick reads the search
    field; a value that is new and non-empty is re-read after a short settle
    delay, and when the re-read still holds a non-whitespace character that
    raw re-read is handed to the processor. Delays are not modelled: the
    loop is a sequence of discrete ticks. */
module Polling {
  import opened Wrappers
  import opened Text
  import Processor

  /** `get_attribute('value') or ""`: a missing attribute reads as empty. */
  function ReadValue(attribute: Option<string>): (v: string)
    ensures attribute.Some? ==> v == attribute.value
    ensures attribute.None? ==> v == ""
  {
    attribute.GetOr("")
  }

  /** The detector's decision for one tick: the code handed to the
      processor, if any, and the new `last_value`. */
  datatype Detection = Detection(code: Option<string>, last: string)

  /** The per-tick rule, from `last_value`, the first read and the re-read.
      A code is emitted exactly when the first read is non-empty and differs
      from `last_value` and the re-read is not all whitespace; the code is the
      raw re-read. After an emission `last_value` is reset to empty, on every
      other tick it takes the first read. */
  function Detect(last: string, first: string, reRead: string): (d: Detection)
    ensures d.code.Some? <==> first != "" && first != last && exists i :: 0 <= i < |reRead| && !IsSpace(reRead[i])
    ensures d.code.Some? ==> d.code.value == reRead && d.last == ""
    ensures d.code.None? ==> d.last == first
  {
    if first != "" && first != last then
      if Strip(reRead) != "" then Detection(Some(reRead), "") else Detection(None, first)
    else
      Detection(None, first)
  }

  /** One tick as the environment answers it: the two attribute reads and
      the driver calls the processor would make. The re-read and the calls
      are only consulted when the rule asks for them. */
  datatype Tick = Tick(first: Option<string>, reRead: Option<string>, calls: Processor.ProcessCalls)

  /** The loop's state: `last_value` and the scanner's `scan_count`. */
  datatype PollState = PollState(last: string, scanCount: nat)

  /** The state the interactive loop starts in, for a scanner whose
      counter is at `count`. */
  function Start(count: nat): (s: PollState)
    ensures s.last == "" && s.scanCount == count
  {
    PollState("", count)
  }

  /** A code handed to the processor, with whether its submit went through
      and whether the field was cleared afterwards. */
  datatype Emission = Emission(code: string, submitted: bool, cleared: bool)

  datatype StepResult = StepResult(state: PollState, emitted: Option<Emission>)

  /** One iteration of the `while True` loop of `run_interactive_mode`. */
  function Step(s: PollState, t: Tick): (r: StepResult)
    ensures r.emitted.None? ==> r.state == PollState(ReadValue(t.first), s.scanCount)
    ensures r.emitted.Some? ==> r.state.last == "" && r.emitted.value.code == ReadValue(t.reRead)
    ensures r.emitted.Some? ==> !IsBlank(r.emitted.value.code)
    ensures r.emitted.Some? <==> Detect(s.last, ReadValue(t.first), ReadValue(t.reRead)).code.Some?
    ensures r.state.scanCount == s.scanCount + (if r.emitted.Some? && r.emitted.value.submitted then 1 else 0)
  {
    var d := Detect(s.last, ReadValue(t.first), ReadValue(t.reRead));
    match d.code
    case None => StepResult(PollState(d.last, s.scanCount), None)
    case Some(code) =>
      var report := Processor.ProcessBarcodeScan(s.scanCount, t.calls);
      StepResult(PollState(d.last, report.scanCount), Some(Emission(code, report.ok, report.fieldCleared)))
  }

  /** The final state and the codes handed to the processor, in order. */
  datatype PollRun = PollRun(state: PollState, emitted: seq<Emission>)

  /** The loop run over a finite sequence of ticks (the interrupt ends it). */
  function Run(s: PollState, ticks: seq<Tick>): (r: PollRun)
    ensures |r.emitted| <= |ticks|
    ensures s.scanCount <= r.state.scanCount <= s.scanCount + |r.emitted|
    decreases |ticks|
  {
    if ticks == [] then
      PollRun(s, [])
    else
      var step := Step(s, ticks[0]);
      var rest := Run(step.state, ticks[1..]);
      match step.emitted
      case None => rest
      case Some(e) => PollRun(rest.state, [e] + rest.emitted)
  }

  /** Number of emissions whose submit went through. */
  function Submitted(es: seq<Emission>): (n: nat)
    ensures n <= |es|
  {
    if es == [] then 0 else (if es[0].submitted then 1 else 0) + Submitted(es[1..])
  }

  /** Over any run, `scan_count` grows by exactly the number of submitted
      codes: it never decreases and at most one scan is counted per tick. */
  lemma {:induction false} RunCountsSubmittedScans(s: PollState, ticks: seq<Tick>)
    ensures Run(s, ticks).state.scanCount == s.scanCount + Submitted(Run(s, ticks).emitted)
    ensures s.scanCount <= Run(s, ticks).state.scanCount <= s.scanCount + |ticks|
    ensures |Run(s, ticks).emitted| <= |ticks|
    decreases |ticks|
  {
    if ticks != [] {
      var step := Step(s, ticks[0]);
      RunCountsSubmittedScans(step.state, ticks[1..]);
      var rest := Run(step.state, ticks[1..]);
      if step.emitted.Some? {
        assert ([step.emitted.value] + rest.emitted)[1..] == rest.emitted;
      }
    }
  }

  /** Every code handed to the processor holds a non-whitespace character. */
  lemma {:induction false} RunEmitsOnlyNonBlank(s: PollState, ticks: seq<Tick>)
    ensures forall i :: 0 <= i < |Run(s, ticks).emitted| ==> !IsBlank(Run(s, ticks).emitted[i].code)
    decreases |ticks|
  {
    if ticks != [] {
      var step := Step(s, ticks[0]);
      RunEmitsOnlyNonBlank(step.state, ticks[1..]);
    }
  }

  /** A field value equal to `last_value` is never processed: while every
      first read repeats it, nothing is emitted and `last_value` stays. */
  lemma {:induction false} UnchangedValueNotReprocessed(s: PollState, ticks: seq<Tick>)
    requires forall i :: 0 <= i < |ticks| ==> ReadValue(ticks[i].first) == s.last
    ensures Run(s, ticks).emitted == []
    ensures Run(s, ticks).state == s
    decreases |ticks|
  {
    if ticks != [] {
      var step := Step(s, ticks[0]);
      assert step.state == s;
      UnchangedValueNotReprocessed(step.state, ticks[1..]);
    }
  }

  /** Two consecutive ticks whose first reads agree: the second emits only
      if the first one did. Debouncing holds for a value that merely stays
      in the field, unless it was just processed (the reset to empty). */
  lemma RepeatEmitsOnlyAfterEmission(s: PollState, t1: Tick, t2: Tick)
    requires ReadValue(t1.first) == ReadValue(t2.first)
    requires Step(s, t1).emitted.None?
    ensures Step(Step(s, t1).state, t2).emitted.None?
  {
  }

  /** The reset makes debouncing conditional: when the clear did not empty
      the field, the value processed on one tick is processed again on the
      next one as soon as its re-read holds a non-whitespace character. */
  lemma ValueLeftInFieldIsReprocessed(s: PollState, t1: Tick, t2: Tick)
    requires Step(s, t1).emitted.Some?
    requires ReadValue(t2.first) == ReadValue(t1.first)
    requires !IsBlank(ReadValue(t2.reRead))
    ensures Step(Step(s, t1).state, t2).emitted.Some?
  {
    var v := ReadValue(t2.reRead);
    var k :| 0 <= k < |v| && !IsSpace(v[k]);
  }

  /** A field that reads empty after a processed scan (the clear worked)
      emits nothing on that tick and the detector is idle again. */
  lemma ClearedFieldIsIdle(s: PollState, t: Tick)
    requires s.last == "" && ReadValue(t.first) == ""
    ensures Step(s, t).emitted.None? && Step(s, t).state == s
  {
  }

  /** The field goes from empty to "012345" and is read back unchanged after
      the settle delay; the processing empties it. Exactly one code,
      "012345", is processed and the detector ends idle. */
  lemma SingleScanScenario(calls: Processor.ProcessCalls)
    requires calls.submit == Returned
    ensures var r := Run(Start(0), [Tick(Some(""), None, calls),
                                    Tick(Some("012345"), Some("012345"), calls),
                                    Tick(Some(""), None, calls)]);
            r.emitted == [Emission("012345", true, Processor.ClearSearchField(calls.clear))]
            && r.state == PollState("", 1)
  {
    var v := "012345";
    assert !IsSpace(v[0]);
    var t0, t1, t2 := Tick(Some(""), None, calls), Tick(Some(v), Some(v), calls), Tick(Some(""), None, calls);
    var ticks := [t0, t1, t2];
    assert Step(Start(0), t0) == StepResult(Start(0), None);
    var e := Emission(v, true, Processor.ClearSearchField(calls.clear));
    assert Step(Start(0), t1) == StepResult(PollState("", 1), Some(e));
    assert Step(PollState("", 1), t2) == StepResult(PollState("", 1), None);
    assert ticks[1..] == [t1, t2] && ticks[1..][1..] == [t2] && ticks[1..][1..][1..] == [];
    assert Run(PollState("", 1), [t2]) == PollRun(PollState("", 1), []);
    assert Run(Start(0), [t1, t2]) == PollRun(PollState("", 1), [e]);
  }
}

=== FILE: processor.dfy ===
/** The scan processor: submit the search the scanner typed, wait for the
    results, count the scan, then clear the field for the next one. Every
    driver call is an input `Outcome`, so each step may return or raise. */
module Processor {
  import opened Wrappers

  /** The three driver calls that clear the field: click on it, select all
      of its text, delete the selection. */
  datatype ClearCalls = ClearCalls(click: Outcome, selectAll: Outcome, delete: Outcome)

  /** Everything the driver does during one processing cycle: the RETURN
      key that submits, the results wait, and the clearing calls. */
  datatype ProcessCalls = ProcessCalls(submit: Outcome, wait: Outcome, clear: ClearCalls)

  /** `wait_for_results`: a fixed wait whose failure is only logged. The
      answer is whether the wait finished. */
  function WaitForResults(wait: Outcome): (finished: bool)
    ensures finished <==> wait != Raised
  {
    wait.Returned?
  }

  /** `clear_search_field`: the field is left empty only when all three calls
      return; the first one that raises stops the sequence and is swallowed. */
  function ClearSearchField(c: ClearCalls): (cleared: bool)
    ensures cleared <==> c.click != Raised && c.selectAll != Raised && c.delete != Raised
  {
    match c.click
    case Raised => false
    case Returned =>
      match c.selectAll
      case Raised => false
      case Returned => c.delete.Returned?
  }

  /** What one call of `process_barcode_scan` leaves behind. */
  datatype Report = Report(scanCount: nat, ok: bool, fieldCleared: bool)

  /** `process_barcode_scan` with the scanner's counter at `count`. Only
      the submit can make it fail: the wait and the clear handle their own
      exceptions and the count is raised between them. */
  function ProcessBarcodeScan(count: nat, calls: ProcessCalls): (r: Report)
    ensures r.ok <==> calls.submit == Returned
    ensures r.ok ==> r.scanCount == count + 1
    ensures !r.ok ==> r.scanCount == count
    ensures r.fieldCleared <==> r.ok && ClearSearchField(calls.clear)
  {
    match calls.submit
    case Raised => Report(count, false, false)
    case Returned =>
      var _ := WaitForResults(calls.wait);
      Report(count + 1, true, ClearSearchField(calls.clear))
  }

  /** The result and the new count depend on the submit alone: any two
      cycles whose RETURN key behaved alike agree, whatever the wait and
      the clear did. */
  lemma WaitAndClearDoNotMatter(count: nat, a: ProcessCalls, b: ProcessCalls)
    requires a.submit == b.submit
    ensures ProcessBarcodeScan(count, a).ok == ProcessBarcodeScan(count, b).ok
    ensures ProcessBarcodeScan(count, a).scanCount == ProcessBarcodeScan(count, b).scanCount
  {
  }
}

=== FILE: self_test.dfy ===
/** The hardware self-test tool: every line the scanner types into the
    terminal is stripped; a non-empty result counts as a scan and is echoed
    with its length and the running count. Ctrl+C ends the test with a
    verdict; end of input ends it without one. */
module SelfTest {
  import opened Text

  /** What the tool prints for one line of input. */
  datatype Echo =
    | Detected(barcode: string, length: nat, count: nat)
    | EmptyInput

  /** How the input stream ended. */
  datatype Ending = Interrupted | EndOfInput

  /** The closing message: the total with the success or troubleshooting
      verdict, or the bare end-of-input notice. */
  datatype Closing = Verdict(total: nat, success: bool) | EofNotice

  /** The line holds a non-whitespace character. */
  predicate HasContent(line: string) {
    exists i :: 0 <= i < |line| && !IsSpace(line[i])
  }

  datatype LineResult = LineResult(count: nat, echo: Echo)

  /** One iteration of the read loop, with the count at `count`. */
  function ReadLine(count: nat, line: string): (r: LineResult)
    ensures HasContent(line) ==> r == LineResult(count + 1, Detected(Strip(line), |Strip(line)|, count + 1))
    ensures !HasContent(line) ==> r == LineResult(count, EmptyInput)
  {
    var barcode := Strip(line);
    if barcode != "" then LineResult(count + 1, Detected(barcode, |barcode|, count + 1))
    else LineResult(count, EmptyInput)
  }

  datatype TestRun = TestRun(count: nat, echoes: seq<Echo>)

  /** The read loop over the lines typed before the input ended. */
  function Run(count: nat, lines: seq<string>): (r: TestRun)
    ensures |r.echoes| == |lines|
    ensures count <= r.count <= count + |lines|
    decreases |lines|
  {
    if lines == [] then
      TestRun(count, [])
    else
      var r := ReadLine(count, lines[0]);
      var rest := Run(r.count, lines[1..]);
      TestRun(rest.count, [r.echo] + rest.echoes)
  }

  /** Number of lines holding a non-whitespace character. */
  function CountContent(lines: seq<string>): (n: nat)
    ensures n <= |lines|
  {
    if lines == [] then 0 else (if HasContent(lines[0]) then 1 else 0) + CountContent(lines[1..])
  }

  /** The count rises by exactly one per line with content and never
      decreases; one echo is printed per line. */
  lemma {:induction false} RunCountsContentLines(count: nat, lines: seq<string>)
    ensures Run(count, lines).count == count + CountContent(lines)
    ensures |Run(count, lines).echoes| == |lines|
    decreases |lines|
  {
    if lines != [] {
      RunCountsContentLines(ReadLine(count, lines[0]).count, lines[1..]);
    }
  }

  /** Line by line: line `i` is reported as a barcode exactly when it
      holds a non-whitespace character, and then the barcode is the stripped
      line and the length is its length. */
  lemma {:induction false} EchoFollowsLine(count: nat, lines: seq<string>, i: int)
    requires 0 <= i < |lines|
    ensures |Run(count, lines).echoes| == |lines|
    ensures var e := Run(count, lines).echoes[i];
            && (e.Detected? <==> HasContent(lines[i]))
            && (e.Detected? ==> e.barcode == Strip(lines[i]) && e.length == |e.barcode|)
    decreases i
  {
    RunCountsContentLines(count, lines);
    if i > 0 {
      var r := ReadLine(count, lines[0]);
      EchoFollowsLine(r.count, lines[1..], i - 1);
      assert Run(count, lines).echoes[i] == Run(r.count, lines[1..]).echoes[i - 1];
      assert lines[1..][i - 1] == lines[i];
    }
  }

  /** The running count shown with the barcode of line `i` is the number of
      lines with content up to and including line `i`. */
  lemma {:induction false} EchoShowsRunningCount(count: nat, lines: seq<string>, i: int)
    requires 0 <= i < |lines|
    ensures |Run(count, lines).echoes| == |lines|
    ensures var e := Run(count, lines).echoes[i];
            e.Detected? ==> e.count == count + CountContent(lines[..i + 1])
    decreases i
  {
    RunCountsContentLines(count, lines);
    var r := ReadLine(count, lines[0]);
    var first := if HasContent(lines[0]) then 1 else 0;
    assert r.count == count + first;
    CountContentPrefix(lines, i);
    if i > 0 {
      EchoShowsRunningCount(r.count, lines[1..], i - 1);
      assert Run(count, lines).echoes[i] == Run(r.count, lines[1..]).echoes[i - 1];
    }
  }

  /** Counting the lines with content up to line `i` counts the first line,
      then the rest up to line `i`. */
  lemma CountContentPrefix(lines: seq<string>, i: int)
    requires 0 <= i < |lines|
    ensures CountContent(lines[..i + 1]) == (if HasContent(lines[0]) then 1 else 0) + CountContent(lines[1..][..i])
  {
    var upTo := lines[..i + 1];
    assert upTo[0] == lines[0] && upTo[1..] == lines[1..][..i];
  }

  /** The whole tool: the echoes, then the closing message. */
  function SelfTestMain(lines: seq<string>, ending: Ending): (r: (seq<Echo>, Closing))
    ensures |r.0| == |lines|
    ensures ending == EndOfInput <==> r.1 == EofNotice
    ensures r.1.Verdict? ==> r.1.total == CountContent(lines) && (r.1.success <==> r.1.total > 0)
  {
    RunCountsContentLines(0, lines);
    var run := Run(0, lines);
    match ending
    case Interrupted => (run.echoes, Verdict(run.count, run.count > 0))
    case EndOfInput => (run.echoes, EofNotice)
  }

  /** On Ctrl+C the total is the number of lines with content and the tool
      declares success exactly when there was one; at end of input it prints
      no total. */
  lemma ClosingVerdict(lines: seq<string>, ending: Ending)
    ensures var closing := SelfTestMain(lines, ending).1;
            && (ending == EndOfInput <==> closing == EofNotice)
            && (ending == Interrupted ==> closing.total == CountContent(lines))
            && (ending == Interrupted ==> (closing.success <==> exists i :: 0 <= i < |lines| && HasContent(lines[i])))
  {
    RunCountsContentLines(0, lines);
    if ending == Interrupted {
      ContentCountPositive(lines);
    }
  }

  lemma {:induction false} ContentCountPositive(lines: seq<string>)
    ensures CountContent(lines) > 0 <==> exists i :: 0 <= i < |lines| && HasContent(lines[i])
    decreases |lines|
  {
    if lines != [] {
      ContentCountPositive(lines[1..]);
      if HasContent(lines[0]) {
        assert 0 < |lines| && HasContent(lines[0]);
      } else {
        forall i | 0 < i < |lines| && HasContent(lines[i])
          ensures exists j :: 0 <= j < |lines[1..]| && HasContent(lines[1..][j])
        {
          assert lines[1..][i - 1] == lines[i];
        }
      }
    }
  }

  /** A line of only spaces and tabs is reported as empty input and does not
      count; a barcode padded with spaces is echoed without them. */
  lemma PaddingIsStripped()
    ensures ReadLine(0, " \t ") == LineResult(0, EmptyInput)
    ensures ReadLine(2, " 0123 ") == LineResult(3, Detected("0123", 4, 3))
  {
    var pad := " \t ";
    assert !HasContent(pad);
    var line := " 0123 ";
    assert !IsSpace(line[1]) && IsSpace(line[5]) && !IsSpace(line[4]);
    assert SkipSpaces(line, 0) == 1;
    assert TrimEnd(line, 1, 6) == 5;
    assert line[1..5] == "0123";
  }
}

=== FILE: session.dfy ===
/** The session controller: open the browser, navigate to Terapeak (through
    the sign-in gate), locate and focus the search field, run one of the two
    scan loops, and clean up. Every driver call is an input `Outcome`; the
    keyboard interrupt that ends a loop is `LoopExit.Interrupted`. The
    controller's observable behaviour is the sequence of `Action`s it
    performs, its return value and the scan count it reports. */
module Session {
  import opened Wrappers
  import opened Text
  import Locator
  import Polling
  import EventDriven

  /** A current URL containing this, in any letter case, is the login page. */
  const SignInMarker: string := "signin"

  /** `"signin" in url.lower()`: the gate opens exactly when "signin", in
      any mix of letter case, occurs in the URL. */
  predicate NeedsSignIn(url: string): (b: bool)
    ensures b <==> exists i :: SpellsSignInAt(url, i)
  {
    SignInGateIgnoresCase(url);
    Contains(Lower(url), SignInMarker)
  }

  /** The calls `open_terapeak` makes: the first navigation, the read of
      `current_url` and the URL it reports, the operator's Enter
      (`input()`), the second navigation. */
  datatype OpenCalls = OpenCalls(firstGet: Outcome, urlRead: Outcome, currentUrl: string, login: Outcome, secondGet: Outcome)

  /** The answer of `open_terapeak`, how many navigations it issued and
      whether it waited for the operator to log in. */
  datatype OpenResult = OpenResult(ok: bool, navigations: nat, awaitedLogin: bool)

  /** `open_terapeak`: navigate once, and when the browser landed on the
      login page wait for the operator and navigate a second time. Any
      exception on the way makes it answer false. */
  function OpenTerapeak(c: OpenCalls): (r: OpenResult)
    ensures r.awaitedLogin <==> c.firstGet == Returned && c.urlRead == Returned && NeedsSignIn(c.currentUrl)
    ensures r.navigations == 2 <==> r.awaitedLogin && c.login == Returned
    ensures r.navigations == 1 <==> !(r.awaitedLogin && c.login == Returned)
    ensures r.ok <==> && c.firstGet == Returned && c.urlRead == Returned
                      && (NeedsSignIn(c.currentUrl) ==> c.login == Returned && c.secondGet == Returned)
  {
    match (c.firstGet, c.urlRead)
    case (Raised, _) => OpenResult(false, 1, false)
    case (Returned, Raised) => OpenResult(false, 1, false)
    case (Returned, Returned) =>
      if NeedsSignIn(c.currentUrl) then
        match c.login
        case Raised => OpenResult(false, 1, true)
        case Returned => OpenResult(c.secondGet == Returned, 2, true)
      else
        OpenResult(true, 1, false)
  }

  /** The steps of a session, in the order the controller performs them. */
  datatype Action =
    | SetupBrowser      // start Chrome
    | Navigate          // `driver.get(terapeak_url)`
    | AwaitLogin        // block on the operator's Enter
    | LocateField       // `find_search_input`
    | FocusField        // click on the located field
    | InstallListener   // inject the page-side Enter listener (automatic mode)
    | ScanLoop          // the `while True` scan loop
    | RunCleanup        // `cleanup`
    | Quit              // `driver.quit()`

  /** The `Action`s of one call of `open_terapeak`. */
  function OpenActions(r: OpenResult): (acts: seq<Action>)
    ensures Count(acts, Navigate) == (if r.navigations == 2 then 2 else 1)
    ensures Count(acts, AwaitLogin) == (if r.awaitedLogin then 1 else 0)
    ensures Count(acts, Quit) == 0 && Count(acts, RunCleanup) == 0
    ensures Count(acts, ScanLoop) == 0 && Count(acts, InstallListener) == 0
  {
    [Navigate] + (if r.awaitedLogin then [AwaitLogin] else []) + (if r.navigations == 2 then [Navigate] else [])
  }

  /** `cleanup`: quit the browser only if a driver exists. */
  function Cleanup(hasDriver: bool): (acts: seq<Action>)
    ensures |acts| > 0 && acts[0] == RunCleanup
    ensures Count(acts, Quit) == (if hasDriver then 1 else 0)
    ensures Count(acts, RunCleanup) == 1
  {
    [RunCleanup] + (if hasDriver then [Quit] else [])
  }

  /** Number of times `a` occurs in `acts`. */
  function Count(acts: seq<Action>, a: Action): nat {
    multiset(acts)[a]
  }

  /** The outcomes of the calls made before the scan loop starts. */
  datatype Startup = Startup(setup: Outcome, open: OpenCalls, page: Locator.Page, focus: Outcome, install: Outcome)

  /** How the startup phase ended: aborted with a return value, or ready to
      scan with the located field. */
  datatype Prepared =
    | Aborted(returned: ModeReturn, actions: seq<Action>)
    | Ready(field: Locator.Handle, actions: seq<Action>)

  /** How a run method ends: `return False`, falling off the end (`None`),
      or with an exception propagating out of it. */
  datatype ModeReturn = ReturnedFalse | ReturnedNone | Propagated

  /** How the scan loop was left: the keyboard interrupt, or an exception
      from a driver call inside the loop. */
  datatype LoopExit = Interrupted | LoopRaised

  /** The startup shared by both run methods, up to and including the focus
      click. A failed setup leaves no driver to quit; a failed open or locate
      quits it and answers false; a raising focus click is outside any
      `try` and propagates without quitting. */
  function StartSession(st: Startup): (p: Prepared)
    ensures |p.actions| > 0 && p.actions[0] == SetupBrowser
    ensures p.Ready? <==> && st.setup == Returned && OpenTerapeak(st.open).ok
                          && Locator.FindSearchInput(st.page).Some? && st.focus == Returned
    ensures p.Ready? ==> Some(p.field) == Locator.FindSearchInput(st.page)
    ensures p.Aborted? ==> p.returned != ReturnedNone
    ensures p.Aborted? && p.returned == ReturnedFalse <==>
              st.setup == Raised || !OpenTerapeak(st.open).ok || Locator.FindSearchInput(st.page).None?
  {
    match st.setup
    case Raised => Aborted(ReturnedFalse, [SetupBrowser])
    case Returned => StartFrom(OpenTerapeak(st.open), Locator.FindSearchInput(st.page), st.focus)
  }

  /** The startup once the browser is up, from what `open_terapeak` and
      `find_search_input` answered and how the focus click went. */
  function StartFrom(visit: OpenResult, found: Option<Locator.Handle>, focus: Outcome): (p: Prepared)
    ensures |p.actions| > 0 && p.actions[0] == SetupBrowser
    ensures p.Ready? <==> visit.ok && found.Some? && focus == Returned
    ensures p.Ready? ==> Some(p.field) == found
    ensures p.Aborted? ==> p.returned != ReturnedNone
    ensures p.Aborted? && p.returned == ReturnedFalse <==> !visit.ok || found.None?
  {
    var acts := [SetupBrowser] + OpenActions(visit) + StartTail(visit.ok, found, focus);
    if !visit.ok then Aborted(ReturnedFalse, acts)
    else
      match found
      case None => Aborted(ReturnedFalse, acts)
      case Some(field) =>
        match focus
        case Raised => Aborted(Propagated, acts)
        case Returned => Ready(field, acts)
  }

  /** The actions after `open_terapeak`: quit at once when it failed, quit
      after locating when no field was found, otherwise locate and focus. */
  function StartTail(visited: bool, found: Option<Locator.Handle>, focus: Outcome): (t: seq<Action>)
    ensures Count(t, Quit) == (if !visited || found.None? then 1 else 0)
    ensures Count(t, Navigate) == 0 && Count(t, RunCleanup) == 0
    ensures Count(t, ScanLoop) == 0 && Count(t, InstallListener) == 0
  {
    if !visited then
      var t := [Quit];
      assert multiset(t)[Quit] == 1 && multiset(t)[Navigate] == 0 && multiset(t)[RunCleanup] == 0;
      t
    else if found.None? then
      var t := [LocateField, Quit];
      assert multiset(t)[Quit] == 1 && multiset(t)[Navigate] == 0 && multiset(t)[RunCleanup] == 0;
      t
    else
      var t := [LocateField, FocusField];
      assert multiset(t)[Quit] == 0 && multiset(t)[Navigate] == 0 && multiset(t)[RunCleanup] == 0;
      t
  }

  /** Once the browser is up, the startup quits the driver only on a failed
      open or locate, navigates as often as `open_terapeak` did, and never
      cleans up, installs the listener or enters the loop. */
  lemma StartFromActions(visit: OpenResult, found: Option<Locator.Handle>, focus: Outcome)
    ensures var p := StartFrom(visit, found, focus);
            && Count(p.actions, Quit) == (if !visit.ok || found.None? then 1 else 0)
            && Count(p.actions, Navigate) == (if visit.navigations == 2 then 2 else 1)
            && Count(p.actions, RunCleanup) == 0
            && Count(p.actions, ScanLoop) == 0
            && Count(p.actions, InstallListener) == 0
  {
    var p := StartFrom(visit, found, focus);
    var mid := OpenActions(visit);
    var t := StartTail(visit.ok, found, focus);
    assert p.actions == [SetupBrowser] + mid + t;
    CountSplit([SetupBrowser], mid, t, Quit);
    CountSplit([SetupBrowser], mid, t, Navigate);
    CountSplit([SetupBrowser], mid, t, RunCleanup);
    CountSplit([SetupBrowser], mid, t, ScanLoop);
    CountSplit([SetupBrowser], mid, t, InstallListener);
  }

  /** The startup quits the driver only on a failed open or locate, and
      never cleans up, installs the listener or enters the loop; when a
      browser was started it navigates as often as `open_terapeak` did. */
  lemma StartupActions(st: Startup)
    ensures var p := StartSession(st);
            && Count(p.actions, Quit) == (if p.Aborted? && p.returned == ReturnedFalse && st.setup == Returned then 1 else 0)
            && Count(p.actions, RunCleanup) == 0
            && Count(p.actions, ScanLoop) == 0
            && Count(p.actions, InstallListener) == 0
            && (st.setup == Returned ==> Count(p.actions, Navigate) == OpenTerapeak(st.open).navigations)
  {
    match st.setup
    case Raised =>
      var one := [SetupBrowser];
      assert multiset(one)[Quit] == 0 && multiset(one)[RunCleanup] == 0;
      assert multiset(one)[ScanLoop] == 0 && multiset(one)[InstallListener] == 0;
    case Returned =>
      StartFromActions(OpenTerapeak(st.open), Locator.FindSearchInput(st.page), st.focus);
  }

  /** The two detection strategies. */
  datatype Mode = Interactive | Auto

  /** What one session is given: the startup outcomes, the ticks each loop
      would see, how the loop ends, and which page listener automatic mode
      runs: the one the script installs as written, or the one it means. */
  datatype Environment = Environment(
    startup: Startup,
    pollTicks: seq<Polling.Tick>,
    autoTicks: seq<EventDriven.AutoTick>,
    exit: LoopExit,
    listener: EventDriven.Listener)

  /** What a session did: the run method's return, the actions in order,
      the final `scan_count` and the total it logs when interrupted. */
  datatype SessionOutcome = SessionOutcome(returned: ModeReturn, actions: seq<Action>, scanCount: nat, summary: Option<nat>)

  /** The `try`/`finally` around the scan loop: the interrupt is caught and
      logs the total, any other exception propagates, and `cleanup` runs on
      both paths. */
  function LeaveLoop(acts: seq<Action>, count: nat, exit: LoopExit): (o: SessionOutcome)
    ensures o.actions == acts + Cleanup(true)
    ensures o.scanCount == count
    ensures o.returned == ReturnedNone <==> exit == Interrupted
    ensures o.returned != ReturnedFalse
    ensures o.summary == (if exit == Interrupted then Some(count) else None)
  {
    match exit
    case Interrupted => SessionOutcome(ReturnedNone, acts + Cleanup(true), count, Some(count))
    case LoopRaised => SessionOutcome(Propagated, acts + Cleanup(true), count, None)
  }

  /** The actions between the startup and `cleanup`: interactive mode
      enters the polling loop; automatic mode first installs the listener,
      the first call inside the `try`, and enters the loop only if that
      returned. */
  function LoopEntry(mode: Mode, install: Outcome): (t: seq<Action>)
    ensures Count(t, ScanLoop) == (if mode == Auto && install == Raised then 0 else 1)
    ensures Count(t, InstallListener) == (if mode == Auto then 1 else 0)
    ensures Count(t, Quit) == 0 && Count(t, RunCleanup) == 0
    ensures mode == Auto && install == Returned ==> |t| == 2 && t[0] == InstallListener && t[1] == ScanLoop
  {
    match mode
    case Interactive =>
      var t := [ScanLoop];
      assert multiset(t)[ScanLoop] == 1 && multiset(t)[InstallListener] == 0;
      assert multiset(t)[Quit] == 0 && multiset(t)[RunCleanup] == 0;
      t
    case Auto =>
      match install
      case Raised =>
        var t := [InstallListener];
        assert multiset(t)[ScanLoop] == 0 && multiset(t)[InstallListener] == 1;
        assert multiset(t)[Quit] == 0 && multiset(t)[RunCleanup] == 0;
        t
      case Returned =>
        var t := [InstallListener, ScanLoop];
        assert multiset(t)[ScanLoop] == 1 && multiset(t)[InstallListener] == 1;
        assert multiset(t)[Quit] == 0 && multiset(t)[RunCleanup] == 0;
        t
  }

  /** How the `try` around the loop is left: a raising listener install
      propagates at once; otherwise the loop ends as the environment says. */
  function LoopExitOf(mode: Mode, env: Environment): LoopExit {
    if mode == Auto && env.startup.install == Raised then LoopRaised else env.exit
  }

  /** The `scan_count` when the `try` is left, on a fresh scanner (0): what
      the polling or the automatic loop counted, or 0 when the install
      raised before any loop ran. */
  function LoopCount(mode: Mode, env: Environment): nat {
    match mode
    case Interactive => Polling.Run(Polling.Start(0), env.pollTicks).state.scanCount
    case Auto =>
      if env.startup.install == Raised then 0
      else EventDriven.Run(env.listener, EventDriven.Install(0), env.autoTicks).state.scanCount
  }

  /** `run_interactive_mode` and `run_auto_mode`: the same startup, then the
      scan phase. */
  function RunMode(mode: Mode, env: Environment): (o: SessionOutcome)
    ensures |o.actions| > 0 && o.actions[0] == SetupBrowser
    ensures o.returned == ReturnedFalse ==> o.scanCount == 0 && o.summary == None
    ensures o.summary.Some? ==> o.summary.value == o.scanCount && o.returned == ReturnedNone
  {
    RunFromShape(mode, StartSession(env.startup), env);
    RunFrom(mode, StartSession(env.startup), env)
  }

  /** What follows the startup: an aborted startup reports no scans; a ready
      one enters the loop and leaves it through the `try`/`finally`. */
  function RunFrom(mode: Mode, p: Prepared, env: Environment): SessionOutcome
  {
    match p
    case Aborted(returned, acts) => SessionOutcome(returned, acts, 0, None)
    case Ready(_, acts) =>
      LeaveLoop(acts + LoopEntry(mode, env.startup.install), LoopCount(mode, env), LoopExitOf(mode, env))
  }

  /** A session is its startup's actions, then, if the startup got the field
      ready, the loop entry and `cleanup`; once the loop is entered the run
      method never answers false and logs the total only on the interrupt. */
  lemma RunFromShape(mode: Mode, p: Prepared, env: Environment)
    ensures var o := RunFrom(mode, p, env);
            && (p.Aborted? ==> o == SessionOutcome(p.returned, p.actions, 0, None))
            && (p.Ready? ==>
                  && o.actions == p.actions + LoopEntry(mode, env.startup.install) + Cleanup(true)
                  && o.scanCount == LoopCount(mode, env)
                  && o.returned != ReturnedFalse
                  && (o.returned == ReturnedNone <==> LoopExitOf(mode, env) == Interrupted)
                  && o.summary == (if LoopExitOf(mode, env) == Interrupted then Some(o.scanCount) else None))
  {
  }

  lemma CountSplit(a: seq<Action>, b: seq<Action>, c: seq<Action>, x: Action)
    ensures Count(a + b + c, x) == Count(a, x) + Count(b, x) + Count(c, x)
  {
    assert multiset(a + b + c) == multiset(a) + multiset(b) + multiset(c);
  }

  /** A session performs `x` as often as its startup did, plus, once the
      loop is entered, as often as the loop entry and `cleanup` do. */
  lemma RunFromCount(mode: Mode, p: Prepared, env: Environment, x: Action)
    ensures Count(RunFrom(mode, p, env).actions, x) ==
              Count(p.actions, x) +
              (if p.Ready? then Count(LoopEntry(mode, env.startup.install), x) + Count(Cleanup(true), x) else 0)
  {
    RunFromShape(mode, p, env);
    if p.Ready? {
      CountSplit(p.actions, LoopEntry(mode, env.startup.install), Cleanup(true), x);
    }
  }

  /** Once the loop is entered, the session's last two actions are
      `cleanup` and its quit, and automatic mode installs the listener
      directly before the loop when the install returned. */
  lemma RunFromOrder(mode: Mode, p: Prepared, env: Environment)
    requires p.Ready?
    ensures var o := RunFrom(mode, p, env);
            && |o.actions| >= |p.actions| + 2
            && o.actions[|o.actions| - 1] == Quit
            && (mode == Auto && env.startup.install == Returned ==>
                  o.actions[|p.actions|] == InstallListener && o.actions[|p.actions| + 1] == ScanLoop)
  {
    RunFromShape(mode, p, env);
    var o := RunFrom(mode, p, env);
    var entry := LoopEntry(mode, env.startup.install);
    assert o.actions[|o.actions| - 1] == Cleanup(true)[1];
    if mode == Auto && env.startup.install == Returned {
      assert o.actions[|p.actions|] == entry[0] && o.actions[|p.actions| + 1] == entry[1];
    }
  }

  /** The driver a session acquires is quit exactly once, on every path but
      two: setup failed (there is no driver), or the focus click raised (it
      is outside every `try`, and the driver is left open). */
  lemma QuitExactlyOnceWhenAcquired(mode: Mode, env: Environment)
    ensures var p := StartSession(env.startup);
            Count(RunMode(mode, env).actions, Quit) ==
              (if env.startup.setup == Raised || (p.Aborted? && p.returned == Propagated) then 0 else 1)
  {
    StartupActions(env.startup);
    RunFromCount(mode, StartSession(env.startup), env, Quit);
  }

  /** `cleanup` runs exactly once whenever the `try` around the loop is
      entered, whichever way it is left, and quitting the driver is the last
      thing the session does; it never runs on a startup failure. */
  lemma CleanupOnceAfterLoop(mode: Mode, env: Environment)
    ensures var p := StartSession(env.startup);
            var o := RunMode(mode, env);
            && Count(o.actions, RunCleanup) == (if p.Ready? then 1 else 0)
            && (p.Ready? ==> o.actions[|o.actions| - 1] == Quit)
  {
    StartupActions(env.startup);
    CleanupFrom(mode, StartSession(env.startup), env);
  }

  /** `CleanupOnceAfterLoop` for any startup that did not clean up. */
  lemma CleanupFrom(mode: Mode, p: Prepared, env: Environment)
    requires Count(p.actions, RunCleanup) == 0
    ensures var o := RunFrom(mode, p, env);
            && Count(o.actions, RunCleanup) == (if p.Ready? then 1 else 0)
            && (p.Ready? ==> o.actions[|o.actions| - 1] == Quit)
  {
    RunFromCount(mode, p, env, RunCleanup);
    if p.Ready? {
      RunFromOrder(mode, p, env);
    }
  }

  /** Both run methods answer false exactly on the three startup failures:
      no browser, Terapeak not opened, no search field. */
  lemma FalseExactlyOnStartupFailure(mode: Mode, env: Environment)
    ensures RunMode(mode, env).returned == ReturnedFalse <==>
              || env.startup.setup == Raised
              || !OpenTerapeak(env.startup.open).ok
              || Locator.FindSearchInput(env.startup.page).None?
  {
    RunFromShape(mode, StartSession(env.startup), env);
  }

  /** The total is logged exactly when the interrupt ends a loop that ran,
      and it is the final `scan_count`. */
  lemma SummaryOnlyOnInterrupt(mode: Mode, env: Environment)
    ensures var o := RunMode(mode, env);
            && (o.summary.Some? <==> Count(o.actions, ScanLoop) == 1 && env.exit == Interrupted)
            && (o.summary.Some? ==> o.summary.value == o.scanCount)
  {
    StartupActions(env.startup);
    SummaryFrom(mode, StartSession(env.startup), env);
  }

  /** `SummaryOnlyOnInterrupt` for any startup that did not enter the loop. */
  lemma SummaryFrom(mode: Mode, p: Prepared, env: Environment)
    requires Count(p.actions, ScanLoop) == 0
    ensures var o := RunFrom(mode, p, env);
            && (o.summary.Some? <==> Count(o.actions, ScanLoop) == 1 && env.exit == Interrupted)
            && (o.summary.Some? ==> o.summary.value == o.scanCount)
  {
    RunFromShape(mode, p, env);
    RunFromCount(mode, p, env, ScanLoop);
  }

  /** The count a session ends with is, in interactive mode, the number of
      codes whose submit went through and, in automatic mode, the number of
      values read from the signal; a session that never scanned ends at 0. */
  lemma SessionCountsScans(mode: Mode, env: Environment)
    ensures var p := StartSession(env.startup);
            var o := RunMode(mode, env);
            && (p.Ready? && mode == Interactive ==>
                  o.scanCount == Polling.Submitted(Polling.Run(Polling.Start(0), env.pollTicks).emitted))
            && (p.Ready? && mode == Auto && env.startup.install == Returned ==>
                  o.scanCount == |EventDriven.Run(env.listener, EventDriven.Install(0), env.autoTicks).emitted|)
            && (p.Aborted? || (mode == Auto && env.startup.install == Raised) ==> o.scanCount == 0)
  {
    RunFromShape(mode, StartSession(env.startup), env);
    match mode
    case Interactive =>
      Polling.RunCountsSubmittedScans(Polling.Start(0), env.pollTicks);
    case Auto =>
      EventDriven.RunCountsEmissions(env.listener, EventDriven.Install(0), env.autoTicks);
  }

  /** With the listener the script installs as written, an automatic
      session never counts a scan: whatever the operator scans, it ends at
      0 and, when interrupted, logs a total of 0. */
  lemma AsWrittenAutoSessionCountsNothing(env: Environment)
    requires env.listener == EventDriven.AsWritten
    ensures RunMode(Auto, env).scanCount == 0
    ensures RunMode(Auto, env).summary == None || RunMode(Auto, env).summary == Some(0)
  {
    RunFromShape(Auto, StartSession(env.startup), env);
    EventDriven.AsWrittenAutoModeNeverDetects(EventDriven.Install(0), env.autoTicks);
  }

  /** Automatic mode installs the listener once, immediately before the
      loop; interactive mode never installs it. */
  lemma ListenerInstalledOnceBeforeLoop(mode: Mode, env: Environment)
    ensures var o := RunMode(mode, env);
            && (mode == Interactive ==> Count(o.actions, InstallListener) == 0)
            && (mode == Auto && Count(o.actions, ScanLoop) == 1 ==>
                  && Count(o.actions, InstallListener) == 1
                  && exists i :: 0 <= i < |o.actions| - 1 && o.actions[i] == InstallListener && o.actions[i + 1] == ScanLoop)
  {
    StartupActions(env.startup);
    ListenerFrom(mode, StartSession(env.startup), env);
  }

  /** `ListenerInstalledOnceBeforeLoop` for any startup that neither
      installed the listener nor entered the loop. */
  lemma ListenerFrom(mode: Mode, p: Prepared, env: Environment)
    requires Count(p.actions, InstallListener) == 0 && Count(p.actions, ScanLoop) == 0
    ensures var o := RunFrom(mode, p, env);
            && (mode == Interactive ==> Count(o.actions, InstallListener) == 0)
            && (mode == Auto && Count(o.actions, ScanLoop) == 1 ==>
                  && Count(o.actions, InstallListener) == 1
                  && exists i :: 0 <= i < |o.actions| - 1 && o.actions[i] == InstallListener && o.actions[i + 1] == ScanLoop)
  {
    RunFromCount(mode, p, env, InstallListener);
    RunFromCount(mode, p, env, ScanLoop);
    if p.Ready? {
      RunFromOrder(mode, p, env);
      if mode == Auto && env.startup.install == Returned {
        var o := RunFrom(mode, p, env);
        var i := |p.actions|;
        assert 0 <= i < |o.actions| - 1 && o.actions[i] == InstallListener && o.actions[i + 1] == ScanLoop;
      }
    }
  }

  /** What `main` does with its arguments. */
  datatype Choice = ShowHelp | Launch(mode: Mode)

  /** `main`'s argument handling: only `argv[1]` is looked at. */
  function SelectMode(argv: seq<string>): (c: Choice)
    ensures c == Launch(Interactive) <==> |argv| > 1 && argv[1] == "--interactive"
    ensures c == ShowHelp <==> |argv| > 1 && argv[1] == "--help"
    ensures c == Launch(Auto) <==> |argv| <= 1 || (argv[1] != "--interactive" && argv[1] != "--help")
  {
    if |argv| > 1 && argv[1] == "--interactive" then Launch(Interactive)
    else if |argv| > 1 && argv[1] == "--help" then ShowHelp
    else Launch(Auto)
  }

  /** What `main` did: whether it built a scanner, the session if one ran,
      and the process exit status. */
  datatype MainOutcome = MainOutcome(scannerBuilt: bool, session: Option<SessionOutcome>, exitStatus: int)

  /** `main`: the run method's return value is ignored, so the status is 0
      unless an exception propagated out of it (Python then exits with 1). */
  function Main(argv: seq<string>, env: Environment): (m: MainOutcome)
    ensures m.scannerBuilt <==> SelectMode(argv) != ShowHelp
    ensures m.session.Some? <==> m.scannerBuilt
    ensures m.session.Some? ==> m.session.value == RunMode(SelectMode(argv).mode, env)
    ensures m.exitStatus == (if m.session.Some? && m.session.value.returned == Propagated then 1 else 0)
  {
    match SelectMode(argv)
    case ShowHelp => MainOutcome(false, None, 0)
    case Launch(mode) =>
      var o := RunMode(mode, env);
      MainOutcome(true, Some(o), if o.returned == Propagated then 1 else 0)
  }

  /** "--auto" and unknown flags run the automatic mode, as no argument does. */
  lemma AutoIsTheDefault(argv: seq<string>, env: Environment)
    requires |argv| > 1 && argv[1] !in ["--interactive", "--help"]
    ensures Main(argv, env).session == Main(argv[..1], env).session
  {
  }

  /** A startup that fails (no browser, Terapeak not opened, no field) still
      ends the process with status 0: the run method's false is dropped. */
  lemma StartupFailureExitsZero(argv: seq<string>, env: Environment)
    requires SelectMode(argv) != ShowHelp
    requires || env.startup.setup == Raised || !OpenTerapeak(env.startup.open).ok
             || Locator.FindSearchInput(env.startup.page).None?
    ensures Main(argv, env).exitStatus == 0
  {
  }

  /** Six characters of `url` from offset `i` spell "signin" in some mix
      of capitals and small letters. */
  predicate SpellsSignInAt(url: string, i: int) {
    0 <= i <= |url| - |SignInMarker| &&
    forall k :: 0 <= k < |SignInMarker| ==> LowerChar(url[i + k]) == SignInMarker[k]
  }

  /** The sign-in test is case-insensitive: "signin" occurs in the
      lower-cased URL exactly when it is spelled, in any mix of letter case,
      somewhere in the URL itself. */
  lemma SignInGateIgnoresCase(url: string)
    ensures Contains(Lower(url), SignInMarker) <==> exists i :: SpellsSignInAt(url, i)
  {
    var low := Lower(url);
    if Contains(low, SignInMarker) {
      var i :| 0 <= i <= |low| && StartsWith(low[i..], SignInMarker);
      forall k | 0 <= k < |SignInMarker| ensures LowerChar(url[i + k]) == SignInMarker[k] {
        assert low[i..][..|SignInMarker|][k] == low[i + k];
      }
      assert SpellsSignInAt(url, i);
    }
    if i :| SpellsSignInAt(url, i) {
      assert low[i..][..|SignInMarker|] == SignInMarker;
      assert StartsWith(low[i..], SignInMarker);
    }
  }
}

=== FILE: text.dfy ===
/** String helpers with the meaning Python gives them: `str.strip()` with no
    argument, `str.lower()` on ASCII letters, and the `in` operator on two
    strings. */
module Text {

  /** The characters Python's `str.isspace` accepts, which is exactly the set
      `str.strip()` removes when called without an argument. */
  predicate IsSpace(c: char) {
    || ('\t' <= c <= '\r')
    || ('\U{1C}' <= c <= '\U{1F}')
    || c == ' '
    || c == '\U{85}'
    || c == '\U{A0}'
    || c == '\U{1680}'
    || ('\U{2000}' <= c <= '\U{200A}')
    || c == '\U{2028}'
    || c == '\U{2029}'
    || c == '\U{202F}'
    || c == '\U{205F}'
    || c == '\U{3000}'
  }

  /** Every character of `s` is whitespace (the empty string included). */
  predicate IsBlank(s: string) {
    forall i :: 0 <= i < |s| ==> IsSpace(s[i])
  }

  /** The index of the first non-whitespace character of `s` at or after
      `k`, or `|s|` when there is none. */
  function SkipSpaces(s: string, k: nat): (n: nat)
    requires k <= |s|
    ensures k <= n <= |s|
    ensures forall i :: k <= i < n ==> IsSpace(s[i])
    ensures n < |s| ==> !IsSpace(s[n])
    decreases |s| - k
  {
    if k < |s| && IsSpace(s[k]) then SkipSpaces(s, k + 1) else k
  }

  /** Moving the end `hi` back over whitespace, but not below `lo`: the end
      reached is `lo` or follows a non-whitespace character. */
  function TrimEnd(s: string, lo: nat, hi: nat): (m: nat)
    requires lo <= hi <= |s|
    ensures lo <= m <= hi
    ensures forall i :: m <= i < hi ==> IsSpace(s[i])
    ensures m > lo ==> !IsSpace(s[m - 1])
    decreases hi
  {
    if hi > lo && IsSpace(s[hi - 1]) then TrimEnd(s, lo, hi - 1) else hi
  }

  /** `r` sits at offset `lo` of `s` with nothing but whitespace around it. */
  predicate Surrounds(s: string, r: string, lo: int) {
    && 0 <= lo <= |s| - |r|
    && r == s[lo..lo + |r|]
    && (forall i :: 0 <= i < lo ==> IsSpace(s[i]))
    && (forall i :: lo + |r| <= i < |s| ==> IsSpace(s[i]))
  }

  /** Python's `s.strip()`: the slice of `s` left once the whitespace on both
      sides is gone. It neither starts nor ends with whitespace, only
      whitespace surrounds it in `s`, and it is empty exactly when `s` is
      blank. */
  function Strip(s: string): (r: string)
    ensures |r| <= |s|
    ensures r != [] ==> !IsSpace(r[0]) && !IsSpace(r[|r| - 1])
    ensures r == [] <==> IsBlank(s)
    ensures Surrounds(s, r, SkipSpaces(s, 0))
  {
    var lo := SkipSpaces(s, 0);
    s[lo..TrimEnd(s, lo, |s|)]
  }

  /** Stripping twice is stripping once. */
  lemma StripIdempotent(s: string)
    ensures Strip(Strip(s)) == Strip(s)
  {
    var r := Strip(s);
    if r != [] {
      assert SkipSpaces(r, 0) == 0;
      assert TrimEnd(r, 0, |r|) == |r|;
    }
  }

  /** Python's `c.lower()` on an ASCII capital; every other character is kept. */
  function LowerChar(c: char): char {
    if 'A' <= c <= 'Z' then (c as int + 32) as char else c
  }

  /** `s.lower()`, character by character. */
  function Lower(s: string): (r: string)
    ensures |r| == |s|
    ensures forall i :: 0 <= i < |s| ==> r[i] == LowerChar(s[i])
  {
    if s == [] then [] else [LowerChar(s[0])] + Lower(s[1..])
  }

  /** `pat` is a prefix of `s`. */
  predicate StartsWith(s: string, pat: string) {
    |pat| <= |s| && s[..|pat|] == pat
  }

  /** Python's `pat in s` for two strings: `pat` occurs somewhere in `s`. */
  predicate Contains(s: string, pat: string) {
    exists i :: 0 <= i <= |s| && StartsWith(s[i..], pat)
  }
}

=== FILE: wrappers.dfy ===
/** Small failure-carrying datatypes shared by every component of the model. */
module Wrappers {

  /** A value that may be absent: Python's `None` versus a present value. */
  datatype Option<+T> = None | Some(value: T) {

    /** The present value, or `default` when absent. */
    function GetOr(default: T): T {
      match this
      case Some(v) => v
      case None => default
    }
  }

  /** What one call into the browser driver (or the terminal) did: it came
      back normally, or it raised an exception that the caller has to handle. */
  datatype Outcome = Returned | Raised
}
